=== FILE: README.md ===
# Report template filler: a verified model of its core

The application takes a lab-report template in word-processor format, sends
a transcript of it to a language model, and writes the model's three tagged
sections (design, code, analysis) back into the template's table cells. This
project models the parts of `app.py` that do not depend on the network or
the user interface, and proves what they guarantee:

- **Document scanner** (`read_docx_content`). It flattens a document into
  the transcript. Every non-blank cell text comes first, in table, row and
  cell order. Every non-blank top-level paragraph follows. All of them are
  joined with newlines.
- **Tagged-response parser** (`parse_ai_response`). It extracts
  `<design>`, `<code>` and `<analysis>` with lazy, newline-crossing regular
  expressions and strips the result. A section whose tags are missing gets a
  fixed per-section sentinel text.
- **Renderer** (`write_content` with `set_font_style` and `add_shading`). It
  appends one paragraph per non-blank line of a section. In the code
  section, each line gets a style from a three-way decision table:
  item-number lines are bold, statement lines are shaded code, and every
  other line is body text.
- **Fill engine** (`fill_report_core`). It makes one pass over every table
  cell and threads a fill status through it. Each cell gets at most one
  category: the first not-yet-filled one, in the keyword map's order (code,
  analysis, design), whose placeholder phrases occur in the cell's joined
  text. In that cell, the paragraphs holding the category's phrases are
  cleared, and the rendered section is appended.

The document is an immutable tree (`Document`). Each rendered paragraph
carries an abstract style record: profile, fonts, size in half-points,
colour, bold flag and optional shading. The fill is a left fold over the
cells (`Fill.FillCells`), nested for rows and tables as in the source. The
main results are:

- `FillTheory.Greedy` characterises the fold's choices independently of the
  fold.
- `FillTheory.GreedyUnique` shows that this characterisation picks out
  exactly one choice sequence.
- `FillTheory.FillReportSpec` states the whole fill in those terms.

Three consequences of the code are easy to miss, and the model keeps them:

- A cell whose text matches several categories is filled only for the first
  of them in map order, because of the `break` at `app.py:150`. It does not
  receive every category that is still open.
- Only the code section is sure to land in the first cell that mentions
  one of its phrases (`FillTheory.CodeGoesToFirstMatch`). Analysis or design
  can skip such a cell when that cell also mentions an open category ahead
  of it in map order. The exact rule for every category is the greedy rule
  of `FillTheory.ChoicesGreedy`.
- Placeholders are matched against the cell's paragraph texts joined with
  no separator (`app.py:138`). A phrase split over two paragraphs therefore
  triggers a fill that clears nothing (`Scenarios.SpanningPhrase`).

## Model

| member | source | states |
|---|---|---|
| Text.Strip | app.py:111 | The stripped line is no longer than the input, and it is empty exactly when every character is whitespace in Python's sense |
| Text.StripIsInfix | app.py:111 | `strip()` removes only whitespace and only from the two ends: the result sits in the input between a blank prefix and a blank suffix |
| Text.StripEnds | app.py:111 | A non-empty stripped string neither starts nor ends with whitespace |
| Text.StripIdempotent | app.py:111 | Stripping twice is stripping once |
| Text.StripKeepsOut | app.py:109-111 | Stripping never introduces a character, so a stripped piece of a newline split holds no newline |
| Text.IndexFrom | app.py:225-227 | The search finds the first occurrence at or after the start index, and finds none only when no occurrence exists |
| Text.Contains | app.py:141 | The `in` test holds exactly when the phrase occurs at some index |
| Text.Split | app.py:109 | Splitting on newline gives at least one piece, no piece contains a newline, and joining the pieces with newline restores the input |
| Text.SplitJoin | app.py:109 | Splitting a newline-join of newline-free pieces returns exactly those pieces: split inverts join |
| Text.NonBlank | app.py:85-89 | The filter keeps only non-blank strings, and it returns nothing exactly when every input is blank |
| Text.NonBlankMembers | app.py:85-89 | A string is kept exactly when it is an input and not blank: nothing is invented and nothing non-blank is lost |
| Text.NonBlankAppend | app.py:82-89 | Filtering a concatenation is concatenating the filtered parts, so the transcript can be built table by table |
| Text.UpperCases | app.py:124 | Upper-casing keeps the length, turns each ASCII lower-case letter into its capital and leaves every other character alone. No lower-case ASCII letter survives, so upper-casing twice is upper-casing once |
| Text.JoinHoldsItem | app.py:138 | Every piece of a join occurs in the joined text |
| Style.FontStyle | app.py:60-71 | The code profile uses Courier New, 10.5 pt and dark grey, and leaves the East Asian face alone. The body profile uses Times New Roman with SimSun, 12 pt and deep blue. Code text is 21 half-points (10.5 pt) and body text 24 (12 pt), and the bold flag is passed through |
| Style.FontStyleDistinct | app.py:60-71 | Two requests give the same run style exactly when they ask for the same profile and the same bold flag |
| Style.StartsWithItemNumber | app.py:120 | The scan decides exactly the pattern: optional whitespace, an ASCII or full-width open parenthesis, one or more ASCII digits, and a close parenthesis |
| Style.Classify | app.py:118-130 | A line is an item number exactly when it matches the pattern. It is a statement exactly when it is not an item number and its upper-case form contains one of the fourteen markers. Otherwise it is narrative |
| Style.LineFormat | app.py:118-133 | In the code section, item-number lines are bold and unshaded, and statement lines are shaded F2F2F2 in the code profile. Every other line, and every line of other sections, is plain body text. No line is both bold and shaded |
| Render.RenderLines | app.py:110-133 | The rendered texts are the stripped non-blank lines in order, and each paragraph carries the format the decision table gives its text |
| Render.WriteContent | app.py:108-133 | One paragraph per non-blank line of the section, in order. Each text is the stripped line, non-empty and newline-free, and each format follows the decision table for the section |
| Render.BlankContentWritesNothing | app.py:109-112 | A section with no non-whitespace character appends no paragraph |
| RenderTheory.RenderJoinedLines | app.py:108-133 | Rendering inverts joining: a section built from clean lines renders to exactly those lines, one paragraph each |
| Scanner.ReadContent | app.py:78-90 | The transcript is the newline-join of every non-blank cell text, in table, row and cell order, followed by every non-blank top-level paragraph. It is empty exactly when every cell and every paragraph is blank |
| Scanner.TablesLines | app.py:82-86 | The table pass collects the non-blank cell texts of every table, in table, row and cell order |
| Scanner.ParagraphLines | app.py:87-89 | The paragraph pass collects the non-blank top-level paragraph texts in order |
| Scanner.TableLines | app.py:83-86 | One table contributes its non-blank cell texts in row order |
| Scanner.RowLines | app.py:84-86 | One row contributes its non-blank cell texts in cell order |
| Scanner.TranscriptEmpty | app.py:81-90 | The transcript is empty exactly when no cell and no paragraph has a non-whitespace character |
| Scanner.NoTablesParagraphsOnly | app.py:87-90 | A document without tables is scanned to its non-blank paragraphs alone |
| Scanner.BlankCellIgnored | app.py:85-86 | A blank cell anywhere in the cell order adds nothing to the transcript |
| Parser.SearchSpec | app.py:225-227 | The search reports the leftmost opening tag that has a closing tag after it, together with the first such closing tag. It reports nothing exactly when no such pair exists |
| Parser.LeftmostMatchUnique | app.py:225-227 | The leftmost lazy match is unique, so the captured group is well defined |
| Parser.ParseResponse | app.py:222-236 | Parsing a string always succeeds; the catch-all error result is never produced |
| Parser.FieldFound | app.py:225-232 | When a match exists, the section is the stripped text between the leftmost opening tag and the first closing tag after it |
| Parser.FieldMissing | app.py:229-232 | When no match exists, the section is that section's sentinel, not an error |
| Parser.NoOccurrenceInside | app.py:225-227 | A tag cannot start inside a stretch that holds no copy of it when a copy of the tag follows that stretch straight away, because the tag's first character appears nowhere else in the tag |
| Parser.ParseRoundTrip | app.py:225-232 | Parsing a reply that contains open tag + d + close tag, with no earlier open tag and no close tag inside d, yields strip(d) for that section |
| Fill.Rank | app.py:100-104 | The keyword map is visited in the order code, analysis, design |
| Fill.ParagraphPhraseInCell | app.py:138-146 | A phrase held by one paragraph also occurs in the cell's joined text, so every paragraph the erasure can clear lies in a cell the locator matches. The converse fails (`Scenarios.SpanningPhrase`) |
| Fill.ChooseFrom | app.py:139-150 | The inner loop picks the first category, from the given position on, that is unfilled and whose phrases occur in the cell; it picks none only when every such category is filled or absent |
| Fill.Choose | app.py:139-150 | A cell gets at most one category: the first unfilled one in map order that its text mentions. It gets none only when every category it mentions is already filled |
| Fill.Mark | app.py:149 | After a cell, a category is filled exactly when it was filled before or was just chosen |
| Fill.ApplySpec | app.py:143-148 | A cell given nothing is unchanged. A cell given a category keeps its paragraph count and formats, and exactly its paragraphs holding that category's phrases are cleared; the others, including those with other categories' phrases, keep their text. The rendered section is appended after them |
| Fill.FillCells | app.py:137-150 | The cell loop keeps the number of cells and never unmarks a category |
| Fill.FillRows | app.py:136-150 | The row loop keeps the number of rows and of cells per row |
| Fill.FillTables | app.py:135-150 | The table loop keeps the table, row and cell structure |
| Fill.FillReport | app.py:92-150 | The fill keeps the table structure and leaves top-level paragraphs untouched |
| FillTheory.ChoicesGreedy | app.py:135-150 | The fold's choices obey the greedy rule. A cell gets category c exactly when c is still open and mentioned, and every category ahead of c is filled or not mentioned. A cell gets nothing only when everything it mentions is filled |
| FillTheory.GreedyUnique | app.py:135-150 | Only one choice sequence obeys the greedy rule, so the rule fully specifies the fill |
| FillTheory.AtMostOncePerCategory | app.py:140-149 | Once a category has been placed in a cell, no later cell receives it |
| FillTheory.CodeGoesToFirstMatch | app.py:139-141 | The code section goes to a cell exactly when that cell is the first one, in document order, whose text mentions a code phrase |
| FillTheory.FillCellsTrace | app.py:137-150 | The cell loop applies to each cell the choice the greedy sequence made for it. It ends with exactly the categories that were filled on entry or chosen for some cell |
| FillTheory.FillCellsAppend | app.py:135-137 | Filling two runs of cells is filling the first, then the second from the status the first left |
| FillTheory.FillRowsFlat | app.py:136-137 | The row loop is the cell loop over its rows' cells in order |
| FillTheory.FillTablesFlat | app.py:135-137 | The table loop is the cell loop over all the document's cells in table, row and cell order |
| FillTheory.FillReportSpec | app.py:135-150 | For the greedy choice sequence over the document's cells, each output cell is that cell with its choice applied. A category ends up filled exactly when some cell was given it |
| FillTheory.NoMatchNoChange | app.py:135-150 | A document with no table, or with no cell mentioning any phrase, comes back unchanged with every category unfilled |
| Scenarios.NothingCleared | app.py:143-146 | A cell none of whose paragraphs holds a phrase of the chosen category on its own keeps every paragraph when the section is appended |
| Scenarios.SpanningPhrase | app.py:138-146 | A cell whose paragraphs are "运行" then "代码" receives the code section while code is still open, and both paragraphs keep their text |
| Scenarios.ItemNumberLine | app.py:120-122 | "（1）查询所有学生信息" in the code section is bold body text without shading |
| Scenarios.StatementLine | app.py:124-127 | "SELECT * FROM Students;" in the code section is shaded code text |
| Scenarios.NarrativeLine | app.py:128-130 | "本次实验加深了我的理解" in the code section is plain body text |
| Scenarios.NoAsciiNoMarker | app.py:124 | A line with no ASCII character never reads as a statement |

## Left out

- The Streamlit user interface and its CSS (`app.py:1-56`, `app.py:238-349`) are presentation glue.
- `call_ai_engine` (`app.py:157-220`) is network calls to the model providers. The model's reply enters the model as the parser's input string, and the generated sections enter as a `Generated` value.
- Library calls are not modelled. This covers loading the document, rewinding the stream and saving to a byte buffer (`app.py:80`, `app.py:96-97`, `app.py:152-155`). It also covers building the shading XML and setting the run's font attributes (`app.py:63-71`, `app.py:75-76`). Only their abstract outcome is kept: the style record and the shading value.
- The spacing of rendered paragraphs (`Pt(4)` before, line spacing 1.25, `app.py:115-116`) is a pair of fixed constants the model does not carry. The 10.5 pt code size is carried as 21 half-points.
- A cell's text, as the document library reports it for the scanner, is modelled as its paragraph texts joined with newlines. This is the library's behaviour and is not visible in the source.
- The library can repeat a merged cell in `row.cells`. Such a repeated cell is modelled as a separate cell, so a write to one does not show in the other.
- Nested tables inside cells are not modelled. Neither pass visits them.
- Clearing a paragraph (`p.text = ""`) keeps the paragraph and its paragraph-level format in the model. What the library does to the paragraph's runs is not modelled.
- `str.upper()` is modelled on ASCII letters only, and `\d` on ASCII digits only. The whitespace set used by `strip()` and `\s` is Python's full `str.isspace()` set.
- The parser's catch-all `except` branch (`app.py:235-236`) is a result variant that is never produced, because every step before it is total on strings.
- The title font in the style configuration (`app.py:19`) is not used by any modelled operation.
- Fill.FillRows: its own contract states only the shape. The full statement is `FillTheory.FillRowsFlat` together with `FillTheory.FillCellsTrace`.
- Fill.FillTables: its own contract states only the shape. The full statement is `FillTheory.FillTablesFlat` together with `FillTheory.FillReportSpec`.
- Fill.FillCells: its own contract states only the length and monotone status. The full statement is `FillTheory.FillCellsTrace`.
- Fill.FillReport: its own contract states only the shape. The full statement is `FillTheory.FillReportSpec`.

=== FILE: document.dfy ===
/**
  The document tree both passes work on: top-level tables of rows of cells
  of paragraphs, followed by the top-level paragraphs. Run-level font data is
  kept only for the paragraphs the engine renders itself; a paragraph that
  came with the template keeps whatever formatting it had, which the engine
  never inspects.
*/
module Document {
  import opened Options
  import opened Text

  datatype Rgb = Rgb(red: nat, green: nat, blue: nat)

  /** The two font profiles of `set_font_style`: "code" and everything else. */
  datatype Profile = BodyProfile | CodeProfile

  /** The abstract outcome of styling a run. `eastAsiaFont` is None when the
      run's wide-script face is left as the template had it. */
  datatype RunStyle = RunStyle(
    profile: Profile,
    latinFont: string,
    eastAsiaFont: Option<string>,
    halfPoints: nat,
    color: Rgb,
    bold: bool)

  /** A paragraph either carries the template's own formatting, untouched by
      the engine, or was rendered by it with an optional background fill and
      one styled run. */
  datatype Format =
    | Template
    | Rendered(shading: Option<string>, run: RunStyle)

  datatype Paragraph = Paragraph(text: string, format: Format)

  datatype Cell = Cell(paragraphs: seq<Paragraph>)

  datatype Row = Row(cells: seq<Cell>)

  datatype Table = Table(rows: seq<Row>)

  datatype Doc = Doc(tables: seq<Table>, paragraphs: seq<Paragraph>)

  function Texts(ps: seq<Paragraph>): seq<string> {
    seq(|ps|, i requires 0 <= i < |ps| => ps[i].text)
  }

  lemma TextsAt(ps: seq<Paragraph>)
    ensures |Texts(ps)| == |ps|
    ensures forall i :: 0 <= i < |ps| ==> Texts(ps)[i] == ps[i].text
  {
  }

  /** A cell's text as the document library reports it: its paragraphs'
      texts separated by newlines. */
  function CellText(c: Cell): string {
    Join(Texts(c.paragraphs), "\n")
  }

  /** The cells of some rows in row, then cell order. */
  function RowsCells(rows: seq<Row>): seq<Cell> {
    if |rows| == 0 then [] else rows[0].cells + RowsCells(rows[1..])
  }

  /** The cells of some tables in table, row, then cell order. */
  function TablesCells(tables: seq<Table>): seq<Cell> {
    if |tables| == 0 then [] else RowsCells(tables[0].rows) + TablesCells(tables[1..])
  }

  /** Every table cell of the document, in the order both passes visit them. */
  function Cells(d: Doc): seq<Cell> {
    TablesCells(d.tables)
  }

  lemma {:induction false} RowsCellsAppend(a: seq<Row>, b: seq<Row>)
    ensures RowsCells(a + b) == RowsCells(a) + RowsCells(b)
  {
    if |a| == 0 {
      assert a + b == b;
    } else {
      assert (a + b)[1..] == a[1..] + b;
      RowsCellsAppend(a[1..], b);
    }
  }

  lemma {:induction false} TablesCellsAppend(a: seq<Table>, b: seq<Table>)
    ensures TablesCells(a + b) == TablesCells(a) + TablesCells(b)
  {
    if |a| == 0 {
      assert a + b == b;
    } else {
      assert (a + b)[1..] == a[1..] + b;
      TablesCellsAppend(a[1..], b);
    }
  }
}

=== FILE: fill.dfy ===
/**
  The fill engine `fill_report_core`: one pass over every table cell that
  picks, per cell, the first not-yet-filled category whose placeholder
  phrases occur in it, clears the paragraphs holding those phrases, and
  appends the rendered section.
*/
module Fill {
  import opened Options
  import opened Text
  import opened Sections
  import opened Document
  import opened Render

  /** The placeholder phrases of each category (the keyword map). */
  function Keywords(c: Category): seq<string> {
    match c
    case Code => ["直接粘贴过来", "格式为", "运行代码", "粘贴代码", "截图"]
    case Analysis => ["具体分析", "改进的办法", "错误原因分析", "心得", "问题或错误"]
    case Design => ["撰写上述内容", "基本语法", "上述内容"]
  }

  /** The order the keyword map is iterated in: code, analysis, design. */
  const Order: seq<Category> := [Code, Analysis, Design]

  /** A category's position in `Order`. */
  function Rank(c: Category): (r: nat)
    ensures r < |Order| && Order[r] == c
  {
    match c
    case Code => 0
    case Analysis => 1
    case Design => 2
  }

  /** Which categories have been filled so far; every category has an entry. */
  type FillStatus = m: map<Category, bool> | forall c :: c in m
    witness map c: Category | true :: false

  /** The initial status: no category filled. */
  const Unfilled: FillStatus := map c: Category | true :: false

  predicate Matches(text: string, c: Category) {
    ContainsAny(text, Keywords(c))
  }

  /** The text the locator searches: the cell's paragraph texts joined with
      no separator. */
  function MatchText(cell: Cell): string {
    Join(Texts(cell.paragraphs), "")
  }

  function MatchTexts(cells: seq<Cell>): seq<string> {
    seq(|cells|, k requires 0 <= k < |cells| => MatchText(cells[k]))
  }

  lemma MatchTextsAt(cells: seq<Cell>)
    ensures |MatchTexts(cells)| == |cells|
    ensures forall k :: 0 <= k < |cells| ==> MatchTexts(cells)[k] == MatchText(cells[k])
  {
  }

  lemma MatchTextsTail(cells: seq<Cell>)
    requires |cells| > 0
    ensures MatchTexts(cells) == [MatchText(cells[0])] + MatchTexts(cells[1..])
  {
    MatchTextsAt(cells);
    MatchTextsAt(cells[1..]);
    assert MatchTexts(cells)[1..] == MatchTexts(cells[1..]);
  }

  /** A phrase held by one paragraph also occurs in the cell's joined
      text, so every paragraph the erasure could clear sits in a cell the
      locator matches. The converse fails: a phrase can span two paragraphs
      and occur in neither. */
  lemma ParagraphPhraseInCell(cell: Cell, i: int, keywords: seq<string>)
    requires 0 <= i < |cell.paragraphs|
    requires ContainsAny(cell.paragraphs[i].text, keywords)
    ensures ContainsAny(MatchText(cell), keywords)
  {
    var texts := Texts(cell.paragraphs);
    TextsAt(cell.paragraphs);
    var k :| 0 <= k < |keywords| && Contains(cell.paragraphs[i].text, keywords[k]);
    var q :| OccursAt(texts[i], keywords[k], q);
    JoinHoldsItem(texts, "", i);
    var p :| OccursAt(Join(texts, ""), texts[i], p);
    OccursWithin(Join(texts, ""), texts[i], keywords[k], p, q);
  }

  /** The inner loop over the keyword map from position `k` on: the first
      category not yet filled whose phrases occur in `text`. */
  function ChooseFrom(text: string, status: FillStatus, k: nat): (r: Option<Category>)
    requires k <= |Order|
    ensures r.Some? ==> k <= Rank(r.value) && !status[r.value] && Matches(text, r.value)
    ensures r.Some? ==> forall c :: k <= Rank(c) < Rank(r.value) ==> status[c] || !Matches(text, c)
    ensures r.None? ==> forall c :: k <= Rank(c) ==> status[c] || !Matches(text, c)
    decreases |Order| - k
  {
    if k == |Order| then None
    else
      var c := Order[k];
      if !status[c] && Matches(text, c) then Some(c) else ChooseFrom(text, status, k + 1)
  }

  /** The category a cell with text `text` receives, if any: at most one,
      because the inner loop stops at the first fill. */
  function Choose(text: string, status: FillStatus): (r: Option<Category>)
    ensures r.Some? ==> !status[r.value] && Matches(text, r.value)
    ensures r.Some? ==> forall c :: Rank(c) < Rank(r.value) ==> status[c] || !Matches(text, c)
    ensures r.None? ==> forall c :: status[c] || !Matches(text, c)
  {
    ChooseFrom(text, status, 0)
  }

  /** The status after a cell: the chosen category becomes filled. */
  function Mark(status: FillStatus, choice: Option<Category>): (r: FillStatus)
    ensures forall c :: r[c] <==> status[c] || choice == Some(c)
  {
    match choice
    case None => status
    case Some(c) => status[c := true]
  }

  /** Clearing a placeholder paragraph: its text becomes "" when it holds any
      of the phrases; the paragraph itself stays. */
  function Erase(p: Paragraph, keywords: seq<string>): Paragraph {
    if ContainsAny(p.text, keywords) then p.(text := "") else p
  }

  /** What the fill does to one cell given the category chosen for it:
      nothing when none was, otherwise the targeted erasure followed by the
      rendered section appended after the existing paragraphs. */
  function Apply(cell: Cell, choice: Option<Category>, g: Generated): Cell {
    match choice
    case None => cell
    case Some(c) =>
      var ps := cell.paragraphs;
      var erased := seq(|ps|, i requires 0 <= i < |ps| => Erase(ps[i], Keywords(c)));
      Cell(erased + WriteContent(g.Get(c), c))
  }

  /** A cell given no category is left alone. A cell given category `c`
      keeps its paragraph count and formats, has exactly the paragraphs that
      hold one of `c`'s phrases cleared (the others, including ones holding
      another category's phrases, keep their text), and then carries the
      rendered section. */
  lemma ApplySpec(cell: Cell, choice: Option<Category>, g: Generated)
    ensures choice.None? ==> Apply(cell, choice, g) == cell
    ensures choice.Some? ==>
              var r := Apply(cell, choice, g);
              var ps := cell.paragraphs;
              var added := WriteContent(g.Get(choice.value), choice.value);
              && |r.paragraphs| == |ps| + |added|
              && r.paragraphs[|ps|..] == added
              && forall i :: 0 <= i < |ps| ==>
                   && r.paragraphs[i].format == ps[i].format
                   && (Matches(ps[i].text, choice.value) ==> r.paragraphs[i].text == "")
                   && (!Matches(ps[i].text, choice.value) ==> r.paragraphs[i].text == ps[i].text)
  {
    if choice.Some? {
      var c := choice.value;
      var ps := cell.paragraphs;
      var erased := seq(|ps|, i requires 0 <= i < |ps| => Erase(ps[i], Keywords(c)));
      assert Apply(cell, choice, g).paragraphs[|ps|..] == WriteContent(g.Get(c), c);
    }
  }

  /** The cell loop: a left fold over `cells` threading the fill status. */
  function FillCells(cells: seq<Cell>, status: FillStatus, g: Generated): (r: (seq<Cell>, FillStatus))
    ensures |r.0| == |cells|
    ensures forall c :: status[c] ==> r.1[c]
  {
    if |cells| == 0 then ([], status)
    else
      var choice := Choose(MatchText(cells[0]), status);
      var (rest, final) := FillCells(cells[1..], Mark(status, choice), g);
      ([Apply(cells[0], choice, g)] + rest, final)
  }

  /** The row loop. */
  function FillRows(rows: seq<Row>, status: FillStatus, g: Generated): (r: (seq<Row>, FillStatus))
    ensures |r.0| == |rows|
    ensures forall i :: 0 <= i < |rows| ==> |r.0[i].cells| == |rows[i].cells|
  {
    if |rows| == 0 then ([], status)
    else
      var (cells, next) := FillCells(rows[0].cells, status, g);
      var (rest, final) := FillRows(rows[1..], next, g);
      var r := [Row(cells)] + rest;
      assert forall i :: 1 <= i < |rows| ==> r[i] == rest[i - 1];
      (r, final)
  }

  /** The table loop. */
  function FillTables(tables: seq<Table>, status: FillStatus, g: Generated): (r: (seq<Table>, FillStatus))
    ensures |r.0| == |tables|
    ensures forall t :: 0 <= t < |tables| ==> |r.0[t].rows| == |tables[t].rows|
    ensures forall t, i :: 0 <= t < |tables| && 0 <= i < |tables[t].rows|
              ==> |r.0[t].rows[i].cells| == |tables[t].rows[i].cells|
  {
    if |tables| == 0 then ([], status)
    else
      var (rows, next) := FillRows(tables[0].rows, status, g);
      var (rest, final) := FillTables(tables[1..], next, g);
      var r := [Table(rows)] + rest;
      assert forall t :: 1 <= t < |tables| ==> r[t] == rest[t - 1];
      (r, final)
  }

  /** `fill_report_core`: the rewritten document and the final fill status.
      Loading and saving the file are left to the caller. */
  function FillReport(d: Doc, g: Generated): (r: (Doc, FillStatus))
    ensures |r.0.tables| == |d.tables|
    ensures forall t :: 0 <= t < |d.tables| ==> |r.0.tables[t].rows| == |d.tables[t].rows|
    ensures forall t, i :: 0 <= t < |d.tables| && 0 <= i < |d.tables[t].rows|
              ==> |r.0.tables[t].rows[i].cells| == |d.tables[t].rows[i].cells|
    ensures r.0.paragraphs == d.paragraphs
  {
    var (tables, status) := FillTables(d.tables, Unfilled, g);
    (Doc(tables, d.paragraphs), status)
  }
}

=== FILE: fill_theory.dfy ===
/**
  What the fill engine guarantees. The choices it makes, cell by cell, are
  characterised by `Greedy` without reference to the fold; the fold over
  nested tables is shown equal to the fold over the flat cell sequence; and
  the document-level consequences follow.
*/
module FillTheory {
  import opened Options
  import opened Sections
  import opened Document
  import opened Fill

  /** The category chosen for each cell of a flat sequence, in order. */
  function Choices(texts: seq<string>, status: FillStatus): (r: seq<Option<Category>>)
    ensures |r| == |texts|
  {
    if |texts| == 0 then []
    else
      var choice := Choose(texts[0], status);
      [choice] + Choices(texts[1..], Mark(status, choice))
  }

  /** Category `c` was filled before position `k`: initially, or by one of
      the first `k` choices. */
  ghost predicate FilledBefore(s0: FillStatus, ch: seq<Option<Category>>, k: int, c: Category)
    requires 0 <= k <= |ch|
  {
    s0[c] || exists j :: 0 <= j < k && ch[j] == Some(c)
  }

  /** The greedy rule at one position: a cell gets `c` exactly when `c` is
      still open, its phrases occur in the cell, and every category ahead of
      it in map order is either filled already or absent from the cell; a
      cell gets nothing only when every category it mentions is filled. */
  ghost predicate GreedyAt(texts: seq<string>, s0: FillStatus, ch: seq<Option<Category>>, k: int)
    requires |ch| == |texts| && 0 <= k < |ch|
  {
    match ch[k]
    case None => forall c :: Matches(texts[k], c) ==> FilledBefore(s0, ch, k, c)
    case Some(c) =>
      && !FilledBefore(s0, ch, k, c)
      && Matches(texts[k], c)
      && forall c' :: Rank(c') < Rank(c) && Matches(texts[k], c') ==> FilledBefore(s0, ch, k, c')
  }

  ghost predicate Greedy(texts: seq<string>, s0: FillStatus, ch: seq<Option<Category>>) {
    |ch| == |texts| && forall k :: 0 <= k < |ch| ==> GreedyAt(texts, s0, ch, k)
  }

  lemma FilledShift(s0: FillStatus, ch: seq<Option<Category>>, k: int, c: Category)
    requires |ch| > 0 && 0 <= k < |ch|
    ensures FilledBefore(Mark(s0, ch[0]), ch[1..], k, c) <==> FilledBefore(s0, ch, k + 1, c)
  {
    if FilledBefore(s0, ch, k + 1, c) && !s0[c] && ch[0] != Some(c) {
      var j :| 0 <= j < k + 1 && ch[j] == Some(c);
      assert ch[1..][j - 1] == Some(c);
    }
    if FilledBefore(Mark(s0, ch[0]), ch[1..], k, c) && !Mark(s0, ch[0])[c] {
      var j :| 0 <= j < k && ch[1..][j] == Some(c);
      assert ch[j + 1] == Some(c);
    }
  }

  /** The fold's choices follow the greedy rule. */
  lemma {:induction false} ChoicesGreedy(texts: seq<string>, s0: FillStatus)
    ensures Greedy(texts, s0, Choices(texts, s0))
  {
    var ch := Choices(texts, s0);
    if |texts| > 0 {
      var s1 := Mark(s0, ch[0]);
      ChoicesGreedy(texts[1..], s1);
      assert ch[1..] == Choices(texts[1..], s1);
      forall k | 0 <= k < |ch|
        ensures GreedyAt(texts, s0, ch, k)
      {
        forall c
          ensures FilledBefore(s0, ch, 0, c) <==> s0[c]
        {
        }
        if k > 0 {
          assert GreedyAt(texts[1..], s1, ch[1..], k - 1);
          forall c
            ensures FilledBefore(s1, ch[1..], k - 1, c) <==> FilledBefore(s0, ch, k, c)
          {
            FilledShift(s0, ch, k - 1, c);
          }
          assert texts[1..][k - 1] == texts[k];
          assert ch[1..][k - 1] == ch[k];
        }
      }
    }
  }

  lemma FilledBeforePrefix(s0: FillStatus, a: seq<Option<Category>>, b: seq<Option<Category>>, k: int, c: Category)
    requires 0 <= k <= |a| && k <= |b| && a[..k] == b[..k]
    ensures FilledBefore(s0, a, k, c) <==> FilledBefore(s0, b, k, c)
  {
    assert forall j :: 0 <= j < k ==> a[j] == a[..k][j] && b[j] == b[..k][j];
  }

  /** The greedy rule admits one choice sequence only, so it fully specifies
      the fill. */
  lemma GreedyUnique(texts: seq<string>, s0: FillStatus, a: seq<Option<Category>>, b: seq<Option<Category>>)
    requires Greedy(texts, s0, a) && Greedy(texts, s0, b)
    ensures a == b
  {
    GreedyFrom(texts, s0, a, b, 0);
  }

  lemma {:induction false} GreedyFrom(texts: seq<string>, s0: FillStatus, a: seq<Option<Category>>, b: seq<Option<Category>>, k: nat)
    requires Greedy(texts, s0, a) && Greedy(texts, s0, b)
    requires k <= |a| && a[..k] == b[..k]
    ensures a == b
    decreases |a| - k
  {
    if k == |a| {
      assert a == a[..k] && b == b[..k];
    } else {
      forall c
        ensures FilledBefore(s0, a, k, c) <==> FilledBefore(s0, b, k, c)
      {
        FilledBeforePrefix(s0, a, b, k, c);
      }
      assert GreedyAt(texts, s0, a, k) && GreedyAt(texts, s0, b, k);
      assert a[..k + 1] == a[..k] + [a[k]];
      assert b[..k + 1] == b[..k] + [b[k]];
      GreedyFrom(texts, s0, a, b, k + 1);
    }
  }

  /** Each category is placed at most once. */
  lemma AtMostOncePerCategory(texts: seq<string>, s0: FillStatus, i: int, j: int, c: Category)
    requires 0 <= i < j < |texts|
    requires Choices(texts, s0)[i] == Some(c)
    ensures Choices(texts, s0)[j] != Some(c)
  {
    ChoicesGreedy(texts, s0);
    var ch := Choices(texts, s0);
    assert GreedyAt(texts, s0, ch, j);
  }

  /** The first category in map order, code, goes to exactly the first cell
      that mentions one of its phrases. */
  lemma CodeGoesToFirstMatch(texts: seq<string>, k: int)
    requires 0 <= k < |texts|
    ensures Choices(texts, Unfilled)[k] == Some(Code)
            <==> Matches(texts[k], Code) && forall j :: 0 <= j < k ==> !Matches(texts[j], Code)
  {
    ChoicesGreedy(texts, Unfilled);
    GreedyCodeFirst(texts, Choices(texts, Unfilled), k);
  }

  lemma GreedyCodeFirst(texts: seq<string>, ch: seq<Option<Category>>, k: int)
    requires Greedy(texts, Unfilled, ch) && 0 <= k < |ch|
    ensures ch[k] == Some(Code)
            <==> Matches(texts[k], Code) && forall j :: 0 <= j < k ==> !Matches(texts[j], Code)
  {
    if ch[k] == Some(Code) {
      CodeNotEarlier(texts, ch, k);
      assert GreedyAt(texts, Unfilled, ch, k);
    }
    if Matches(texts[k], Code) && forall j :: 0 <= j < k ==> !Matches(texts[j], Code) {
      CodeOpenUntil(texts, ch, k);
      assert forall c :: c != Code ==> Rank(Code) < Rank(c);
      assert GreedyAt(texts, Unfilled, ch, k);
    }
  }

  lemma CodeNotEarlier(texts: seq<string>, ch: seq<Option<Category>>, k: int)
    requires Greedy(texts, Unfilled, ch) && 0 <= k < |ch| && ch[k] == Some(Code)
    ensures forall j :: 0 <= j < k ==> !Matches(texts[j], Code)
  {
    assert GreedyAt(texts, Unfilled, ch, k);
    forall j | 0 <= j < k
      ensures !Matches(texts[j], Code)
    {
      assert GreedyAt(texts, Unfilled, ch, j);
      assert !FilledBefore(Unfilled, ch, j, Code);
      assert ch[j] != Some(Code);
    }
  }

  lemma CodeOpenUntil(texts: seq<string>, ch: seq<Option<Category>>, k: int)
    requires Greedy(texts, Unfilled, ch) && 0 <= k < |ch|
    requires forall j :: 0 <= j < k ==> !Matches(texts[j], Code)
    ensures !FilledBefore(Unfilled, ch, k, Code)
  {
    forall j | 0 <= j < k
      ensures ch[j] != Some(Code)
    {
      assert GreedyAt(texts, Unfilled, ch, j);
    }
  }

  /** The cell fold applies, to each cell, what `Choices` picked for it, and
      ends with exactly the categories that were open-and-picked or filled
      on entry. */
  lemma {:induction false} FillCellsTrace(cells: seq<Cell>, s: FillStatus, g: Generated)
    ensures var ch := Choices(MatchTexts(cells), s);
            var r := FillCells(cells, s, g);
            && (forall k :: 0 <= k < |cells| ==> r.0[k] == Apply(cells[k], ch[k], g))
            && (forall c :: r.1[c] <==> s[c] || Some(c) in ch)
  {
    if |cells| > 0 {
      var choice := Choose(MatchText(cells[0]), s);
      var s1 := Mark(s, choice);
      var rest := Choices(MatchTexts(cells[1..]), s1);
      MatchTextsTail(cells);
      var ch := Choices(MatchTexts(cells), s);
      assert ch == [choice] + rest;
      FillCellsTrace(cells[1..], s1, g);
      var r := FillCells(cells, s, g);
      var r1 := FillCells(cells[1..], s1, g);
      assert r.0 == [Apply(cells[0], choice, g)] + r1.0 && r.1 == r1.1;
      forall k | 0 <= k < |cells|
        ensures r.0[k] == Apply(cells[k], ch[k], g)
      {
        if k > 0 {
          assert r.0[k] == r1.0[k - 1] && cells[k] == cells[1..][k - 1] && ch[k] == rest[k - 1];
        }
      }
      forall c
        ensures r.1[c] <==> s[c] || Some(c) in ch
      {
        assert Some(c) in ch <==> choice == Some(c) || Some(c) in rest;
      }
    }
  }

  /** Folding over two runs of cells is folding over the first, then over
      the second from where the first left off. */
  lemma {:induction false} FillCellsAppend(a: seq<Cell>, b: seq<Cell>, s: FillStatus, g: Generated)
    ensures var ra := FillCells(a, s, g);
            var rb := FillCells(b, ra.1, g);
            FillCells(a + b, s, g) == (ra.0 + rb.0, rb.1)
  {
    if |a| == 0 {
      assert a + b == b;
      assert [] + FillCells(b, s, g).0 == FillCells(b, s, g).0;
    } else {
      var s1 := Mark(s, Choose(MatchText(a[0]), s));
      FillCellsAppend(a[1..], b, s1, g);
      FillCellsAppendStep(a, b, s, g);
    }
  }

  lemma FillCellsAppendStep(a: seq<Cell>, b: seq<Cell>, s: FillStatus, g: Generated)
    requires |a| > 0
    requires var s1 := Mark(s, Choose(MatchText(a[0]), s));
             var ra1 := FillCells(a[1..], s1, g);
             FillCells(a[1..] + b, s1, g) == (ra1.0 + FillCells(b, ra1.1, g).0, FillCells(b, ra1.1, g).1)
    ensures var ra := FillCells(a, s, g);
            var rb := FillCells(b, ra.1, g);
            FillCells(a + b, s, g) == (ra.0 + rb.0, rb.1)
  {
    var choice := Choose(MatchText(a[0]), s);
    var s1 := Mark(s, choice);
    var head := Apply(a[0], choice, g);
    var ra1 := FillCells(a[1..], s1, g);
    var rb := FillCells(b, ra1.1, g);
    FillCellsUnfold(a, s, g);
    FillCellsUnfoldAppend(a, b, s, g);
    ConsAssoc(head, ra1.0, rb.0);
  }

  lemma ConsAssoc<T>(h: T, x: seq<T>, y: seq<T>)
    ensures [h] + (x + y) == ([h] + x) + y
  {
  }

  /** One step of the cell fold. */
  lemma FillCellsUnfold(cells: seq<Cell>, s: FillStatus, g: Generated)
    requires |cells| > 0
    ensures var choice := Choose(MatchText(cells[0]), s);
            var rest := FillCells(cells[1..], Mark(s, choice), g);
            FillCells(cells, s, g) == ([Apply(cells[0], choice, g)] + rest.0, rest.1)
  {
  }

  lemma FillCellsUnfoldAppend(a: seq<Cell>, b: seq<Cell>, s: FillStatus, g: Generated)
    requires |a| > 0
    ensures var choice := Choose(MatchText(a[0]), s);
            var rest := FillCells(a[1..] + b, Mark(s, choice), g);
            FillCells(a + b, s, g) == ([Apply(a[0], choice, g)] + rest.0, rest.1)
  {
    assert (a + b)[0] == a[0];
    assert (a + b)[1..] == a[1..] + b;
    FillCellsUnfold(a + b, s, g);
  }

  /** The row loop visits the cells of its rows in order, as one flat fold. */
  lemma {:induction false} FillRowsFlat(rows: seq<Row>, s: FillStatus, g: Generated)
    ensures RowsCells(FillRows(rows, s, g).0) == FillCells(RowsCells(rows), s, g).0
    ensures FillRows(rows, s, g).1 == FillCells(RowsCells(rows), s, g).1
  {
    if |rows| > 0 {
      var (cells, next) := FillCells(rows[0].cells, s, g);
      var (rest, final) := FillRows(rows[1..], next, g);
      FillRowsFlat(rows[1..], next, g);
      FillCellsAppend(rows[0].cells, RowsCells(rows[1..]), s, g);
      assert ([Row(cells)] + rest)[1..] == rest;
    }
  }

  /** The table loop visits the cells of its tables in order, as one flat
      fold. */
  lemma {:induction false} FillTablesFlat(tables: seq<Table>, s: FillStatus, g: Generated)
    ensures TablesCells(FillTables(tables, s, g).0) == FillCells(TablesCells(tables), s, g).0
    ensures FillTables(tables, s, g).1 == FillCells(TablesCells(tables), s, g).1
  {
    if |tables| > 0 {
      var (rows, next) := FillRows(tables[0].rows, s, g);
      var (rest, final) := FillTables(tables[1..], next, g);
      FillRowsFlat(tables[0].rows, s, g);
      FillTablesFlat(tables[1..], next, g);
      FillCellsAppend(RowsCells(tables[0].rows), TablesCells(tables[1..]), s, g);
      assert ([Table(rows)] + rest)[1..] == rest;
    }
  }

  /** The whole fill, characterised without the fold: given the one choice
      sequence that obeys the greedy rule over the document's cells (in
      table, row, cell order, matched against their pre-erasure text), every
      cell becomes `Apply` of its choice, and a category ends up filled
      exactly when some cell was given it. */
  lemma FillReportSpec(d: Doc, g: Generated, ch: seq<Option<Category>>)
    requires Greedy(MatchTexts(Cells(d)), Unfilled, ch)
    ensures var (out, status) := FillReport(d, g);
            && |Cells(out)| == |Cells(d)|
            && (forall k :: 0 <= k < |Cells(d)| ==> Cells(out)[k] == Apply(Cells(d)[k], ch[k], g))
            && (forall c :: status[c] <==> Some(c) in ch)
  {
    var texts := MatchTexts(Cells(d));
    ChoicesGreedy(texts, Unfilled);
    GreedyUnique(texts, Unfilled, Choices(texts, Unfilled), ch);
    FillTablesFlat(d.tables, Unfilled, g);
    FillCellsTrace(Cells(d), Unfilled, g);
  }

  /** A cell with no phrase of any category in its text. */
  predicate Idle(cell: Cell) {
    forall c :: !Matches(MatchText(cell), c)
  }

  lemma {:induction false} FillCellsIdle(cells: seq<Cell>, s: FillStatus, g: Generated)
    requires forall k :: 0 <= k < |cells| ==> Idle(cells[k])
    ensures FillCells(cells, s, g) == (cells, s)
  {
    if |cells| > 0 {
      assert Idle(cells[0]);
      FillCellsIdle(cells[1..], s, g);
      assert [cells[0]] + cells[1..] == cells;
    }
  }

  lemma {:induction false} FillRowsIdle(rows: seq<Row>, s: FillStatus, g: Generated)
    requires forall i, k :: 0 <= i < |rows| && 0 <= k < |rows[i].cells| ==> Idle(rows[i].cells[k])
    ensures FillRows(rows, s, g) == (rows, s)
  {
    if |rows| > 0 {
      FillCellsIdle(rows[0].cells, s, g);
      FillRowsIdle(rows[1..], s, g);
      assert [Row(rows[0].cells)] + rows[1..] == rows;
    }
  }

  lemma {:induction false} FillTablesIdle(tables: seq<Table>, s: FillStatus, g: Generated)
    requires forall t, i, k :: 0 <= t < |tables| && 0 <= i < |tables[t].rows| && 0 <= k < |tables[t].rows[i].cells|
               ==> Idle(tables[t].rows[i].cells[k])
    ensures FillTables(tables, s, g) == (tables, s)
  {
    if |tables| > 0 {
      FillRowsIdle(tables[0].rows, s, g);
      FillTablesIdle(tables[1..], s, g);
      assert [Table(tables[0].rows)] + tables[1..] == tables;
    }
  }

  /** With no table, or no cell holding any phrase, the document comes back
      as it was and nothing is reported filled. */
  lemma NoMatchNoChange(d: Doc, g: Generated)
    requires forall t, i, k :: 0 <= t < |d.tables| && 0 <= i < |d.tables[t].rows| && 0 <= k < |d.tables[t].rows[i].cells|
               ==> Idle(d.tables[t].rows[i].cells[k])
    ensures FillReport(d, g).0 == d
    ensures forall c :: !FillReport(d, g).1[c]
  {
    FillTablesIdle(d.tables, Unfilled, g);
  }
}

=== FILE: options.dfy ===
/** The optional value used wherever the source tests a value against `None`. */
module Options {

  datatype Option<+T> = None | Some(value: T)

}

=== FILE: parser.dfy ===
/**
  The response parser `parse_ai_response`: pulls the three tagged sections
  out of the model's reply, substituting a visible sentinel for any section
  whose tags are missing.
*/
module Parser {
  import opened Options
  import opened Text
  import opened Sections

  function OpenTag(c: Category): string {
    match c
    case Design => "<design>"
    case Code => "<code>"
    case Analysis => "<analysis>"
  }

  function CloseTag(c: Category): string {
    match c
    case Design => "</design>"
    case Code => "</code>"
    case Analysis => "</analysis>"
  }

  /** The text put in place of a section the reply does not contain. */
  function Sentinel(c: Category): string {
    match c
    case Design => "AI生成格式缺失(Design)"
    case Code => "AI生成格式缺失(Code)"
    case Analysis => "AI生成格式缺失(Analysis)"
  }

  const ParseFailedMessage: string := "解析 AI 返回内容失败，请重试"

  /** The two outcomes of parsing: the three sections, or the generic error
      of the catch-all handler. */
  datatype ParseResult = Parsed(content: Generated) | ParseFailed(error: string)

  /** `<tag>(.*?)</tag>` with DOTALL matches `text` from the opening tag at
      `i` to the closing tag at `j`: the closing tag is the first one after
      the opening tag, because the group is non-greedy. */
  ghost predicate MatchAt(text: string, c: Category, i: int, j: int) {
    && OccursAt(text, OpenTag(c), i)
    && i + |OpenTag(c)| <= j
    && OccursAt(text, CloseTag(c), j)
    && forall k :: i + |OpenTag(c)| <= k < j ==> !OccursAt(text, CloseTag(c), k)
  }

  /** The match `re.search` reports: the one that starts leftmost. */
  ghost predicate LeftmostMatch(text: string, c: Category, i: int, j: int) {
    && MatchAt(text, c, i, j)
    && forall i', j' :: i' < i ==> !MatchAt(text, c, i', j')
  }

  /** `re.search(r'<tag>(.*?)</tag>', text, re.DOTALL)`: the positions of the
      opening and closing tags of the match, if there is one. */
  function Search(text: string, c: Category): Option<(nat, nat)> {
    match IndexFrom(text, OpenTag(c), 0)
    case None => None
    case Some(i) =>
      match IndexFrom(text, CloseTag(c), i + |OpenTag(c)|)
      case None => None
      case Some(j) => Some((i, j))
  }

  /** The search agrees with the regular expression: it reports the
      leftmost match when there is one, and nothing only when there is
      none. */
  lemma SearchSpec(text: string, c: Category)
    ensures Search(text, c).Some? ==> LeftmostMatch(text, c, Search(text, c).value.0, Search(text, c).value.1)
    ensures Search(text, c).None? ==> forall i, j :: !MatchAt(text, c, i, j)
  {
  }

  /** There is at most one leftmost match, so the group is well defined. */
  lemma LeftmostMatchUnique(text: string, c: Category, i: int, j: int, i': int, j': int)
    requires LeftmostMatch(text, c, i, j) && LeftmostMatch(text, c, i', j')
    ensures i == i' && j == j'
  {
  }

  /** One field of the result: the stripped group, or the sentinel. */
  function Field(text: string, c: Category): string {
    match Search(text, c)
    case Some((i, j)) => Group(text, c, i, j)
    case None => Sentinel(c)
  }

  /** The stripped text between the opening tag at `i` and the closing tag
      at `j`. */
  function Group(text: string, c: Category, i: nat, j: nat): string
    requires i + |OpenTag(c)| <= j <= |text|
  {
    Strip(text[i + |OpenTag(c)|..j])
  }

  /** `parse_ai_response`. The catch-all handler cannot fire on a string, so
      the result is always `Parsed`, and each field is computed from its own
      tag pair alone. */
  function ParseResponse(text: string): (r: ParseResult)
    ensures r.Parsed?
  {
    Parsed(Generated(Field(text, Design), Field(text, Code), Field(text, Analysis)))
  }

  /** Each section of the result is decided by its own tag pair alone. */
  lemma FieldsIndependent(text: string, c: Category)
    ensures ParseResponse(text).content.Get(c) == Field(text, c)
  {
  }

  /** The field rule when the tags are there: the field is the stripped
      text between the leftmost opening tag and the first closing tag after
      it. */
  lemma FieldFound(text: string, c: Category, i: int, j: int)
    requires LeftmostMatch(text, c, i, j)
    ensures ParseResponse(text).content.Get(c) == Strip(text[i + |OpenTag(c)|..j])
  {
    SearchFindsLeftmost(text, c, i, j);
    FieldOfMatch(text, c, i, j);
    FieldsIndependent(text, c);
  }

  /** The search reports exactly the leftmost match. */
  lemma SearchFindsLeftmost(text: string, c: Category, i: int, j: int)
    requires LeftmostMatch(text, c, i, j)
    ensures Search(text, c) == Some((i, j))
  {
    SearchSpec(text, c);
    var m := Search(text, c);
    assert m.Some?;
    LeftmostMatchUnique(text, c, i, j, m.value.0, m.value.1);
  }

  lemma {:induction false} FieldOfMatch(text: string, c: Category, i: int, j: int)
    requires 0 <= i && i + |OpenTag(c)| <= j <= |text|
    requires Search(text, c) == Some((i, j))
    ensures Field(text, c) == Group(text, c, i, j)
  {
  }

  /** The field rule when they are not: a missing section is not an error,
      the field is that section's sentinel. */
  lemma FieldMissing(text: string, c: Category)
    requires forall i, j :: !MatchAt(text, c, i, j)
    ensures ParseResponse(text).content.Get(c) == Sentinel(c)
  {
    SearchSpec(text, c);
    assert Search(text, c).None?;
    FieldsIndependent(text, c);
  }

  /** A tag's first character, '<', appears nowhere else in it, so no
      occurrence of the tag can straddle the start of another. */
  predicate UniqueLead(p: string) {
    |p| > 0 && forall m :: 0 < m < |p| ==> p[m] != p[0]
  }

  lemma TagsUniqueLead(c: Category)
    ensures UniqueLead(OpenTag(c)) && UniqueLead(CloseTag(c))
  {
  }

  /** In `x + a + p + b`, no occurrence of `p` starts inside `a` when `a`
      itself holds none. */
  lemma NoOccurrenceInside(x: string, a: string, p: string, b: string, k: int)
    requires UniqueLead(p) && !Contains(a, p)
    requires |x| <= k < |x| + |a|
    ensures !OccursAt(x + a + p + b, p, k)
  {
    var text := x + a + p + b;
    var edge := |x| + |a|;
    assert text[edge] == p[0];
    if OccursAt(text, p, k) && k + |p| <= edge {
      var k' := k - |x|;
      assert text[k..k + |p|] == a[k'..k' + |p|];
      assert OccursAt(a, p, k');
    }
  }

  /** The tags placed around `d` form a match of the section's pattern. */
  lemma PlacedMatch(pre: string, d: string, post: string, c: Category)
    requires !Contains(d, CloseTag(c))
    ensures var text := pre + OpenTag(c) + d + CloseTag(c) + post;
            MatchAt(text, c, |pre|, |pre| + |OpenTag(c)| + |d|)
  {
    var open, close := OpenTag(c), CloseTag(c);
    var text := pre + open + d + close + post;
    var i := |pre|;
    var j := |pre| + |open| + |d|;
    TagsUniqueLead(c);
    assert text == (pre + open) + d + close + post;
    assert OccursAt(text, open, i) by {
      assert text[i..i + |open|] == open;
    }
    assert OccursAt(text, close, j) by {
      assert text[j..j + |close|] == close;
    }
    forall k | i + |open| <= k < j
      ensures !OccursAt(text, close, k)
    {
      NoOccurrenceInside(pre + open, d, close, post, k);
    }
  }

  /** No match of the section's pattern starts before the placed tag when
      `pre` holds no opening tag. */
  lemma NothingEarlier(pre: string, d: string, post: string, c: Category)
    requires !Contains(pre, OpenTag(c))
    ensures var text := pre + OpenTag(c) + d + CloseTag(c) + post;
            forall i', j' :: i' < |pre| ==> !MatchAt(text, c, i', j')
  {
    var open, close := OpenTag(c), CloseTag(c);
    var text := pre + open + d + close + post;
    TagsUniqueLead(c);
    assert text == [] + pre + open + (d + close + post);
    forall i', j' | i' < |pre|
      ensures !MatchAt(text, c, i', j')
    {
      if 0 <= i' {
        NoOccurrenceInside([], pre, open, d + close + post, i');
      }
    }
  }

  /** Parsing recovers a section: a reply that has `<tag>` + d + `</tag>`,
      with no earlier `<tag>` and no `</tag>` inside `d`, yields the stripped
      `d` for that section, whatever surrounds it. */
  lemma ParseRoundTrip(pre: string, d: string, post: string, c: Category)
    requires !Contains(pre, OpenTag(c))
    requires !Contains(d, CloseTag(c))
    ensures ParseResponse(pre + OpenTag(c) + d + CloseTag(c) + post).content.Get(c) == Strip(d)
  {
    var text := pre + OpenTag(c) + d + CloseTag(c) + post;
    var i := |pre|;
    var j := |pre| + |OpenTag(c)| + |d|;
    PlacedMatch(pre, d, post, c);
    NothingEarlier(pre, d, post, c);
    assert text[i + |OpenTag(c)|..j] == d;
    FieldFound(text, c, i, j);
  }
}

=== FILE: render.dfy ===
/**
  The renderer `write_content`: one new paragraph per non-blank line of a
  generated block, styled by the line classifier.
*/
module Render {
  import opened Text
  import opened Document
  import opened Sections
  import opened Style

  /** Each string stripped, in order. */
  function StripAll(xs: seq<string>): seq<string> {
    seq(|xs|, i requires 0 <= i < |xs| => Strip(xs[i]))
  }

  lemma StripAllAt(xs: seq<string>)
    ensures |StripAll(xs)| == |xs|
    ensures forall i :: 0 <= i < |xs| ==> StripAll(xs)[i] == Strip(xs[i])
  {
  }

  /** Every paragraph carries the format the classifier gives its text. */
  predicate Classified(ps: seq<Paragraph>, mode: Category) {
    forall i :: 0 <= i < |ps| ==> ps[i].format == LineFormat(ps[i].text, mode)
  }

  /** The paragraphs rendered for `lines`, skipping the ones that strip to "". */
  function RenderLines(lines: seq<string>, mode: Category): (r: seq<Paragraph>)
    ensures Texts(r) == StripAll(NonBlank(lines))
    ensures Classified(r, mode)
  {
    if |lines| == 0 then []
    else
      var line := Strip(lines[0]);
      var rest := RenderLines(lines[1..], mode);
      if line == "" then
        assert NonBlank(lines) == NonBlank(lines[1..]);
        rest
      else
        var p := Paragraph(line, LineFormat(line, mode));
        var r := [p] + rest;
        TextsCons(p, rest);
        assert NonBlank(lines) == [lines[0]] + NonBlank(lines[1..]);
        StripAllCons(lines[0], NonBlank(lines[1..]));
        ClassifiedCons(p, rest, mode);
        r
  }

  lemma StripAllCons(x: string, xs: seq<string>)
    ensures StripAll([x] + xs) == [Strip(x)] + StripAll(xs)
  {
    var ys := [x] + xs;
    var l, r := StripAll(ys), [Strip(x)] + StripAll(xs);
    StripAllAt(ys);
    StripAllAt(xs);
    forall i | 0 <= i < |l|
      ensures l[i] == r[i]
    {
      if i > 0 {
        assert ys[i] == xs[i - 1];
      }
    }
  }

  lemma TextsCons(p: Paragraph, ps: seq<Paragraph>)
    ensures Texts([p] + ps) == [p.text] + Texts(ps)
  {
    var qs := [p] + ps;
    var l, r := Texts(qs), [p.text] + Texts(ps);
    TextsAt(qs);
    TextsAt(ps);
    forall i | 0 <= i < |l|
      ensures l[i] == r[i]
    {
      if i > 0 {
        assert qs[i] == ps[i - 1];
      }
    }
  }

  lemma ClassifiedCons(p: Paragraph, ps: seq<Paragraph>, mode: Category)
    requires p.format == LineFormat(p.text, mode)
    requires Classified(ps, mode)
    ensures Classified([p] + ps, mode)
  {
    var r := [p] + ps;
    forall i | 1 <= i < |r|
      ensures r[i].format == LineFormat(r[i].text, mode)
    {
      assert r[i] == ps[i - 1];
    }
  }

  /** `write_content(cell, content, mode)`: the paragraphs appended to the
      cell, one per line of `content` that is not blank, in line order. */
  function WriteContent(content: string, mode: Category): (r: seq<Paragraph>)
    ensures |r| == |NonBlank(Split(content, '\n'))|
    ensures forall i :: 0 <= i < |r| ==> r[i].text == Strip(NonBlank(Split(content, '\n'))[i])
    ensures forall i :: 0 <= i < |r| ==> r[i].text != "" && '\n' !in r[i].text
    ensures forall i :: 0 <= i < |r| ==> r[i].format == LineFormat(r[i].text, mode)
  {
    var lines := Split(content, '\n');
    var r := RenderLines(lines, mode);
    StripAllAt(NonBlank(lines));
    TextsAt(r);
    assert forall i :: 0 <= i < |r| ==> r[i].text != "" && '\n' !in r[i].text by {
      forall i | 0 <= i < |r|
        ensures r[i].text != "" && '\n' !in r[i].text
      {
        var line := NonBlank(lines)[i];
        NonBlankMembers(lines);
        assert line in lines;
        StripKeepsOut(line, '\n');
      }
    }
    r
  }

  /** A block with no non-blank character appends nothing. */
  lemma BlankContentWritesNothing(content: string, mode: Category)
    requires IsBlank(content)
    ensures WriteContent(content, mode) == []
  {
    JoinBlank(Split(content, '\n'), "\n");
  }

  lemma {:induction false} JoinBlank(items: seq<string>, sep: string)
    requires IsBlank(Join(items, sep))
    ensures forall i :: 0 <= i < |items| ==> IsBlank(items[i])
  {
    if |items| > 1 {
      BlankAppend(items[0] + sep, Join(items[1..], sep));
      BlankAppend(items[0], sep);
      JoinBlank(items[1..], sep);
      assert forall i :: 1 <= i < |items| ==> items[i] == items[1..][i - 1];
    }
  }
}

=== FILE: render_theory.dfy ===
/**
  What `write_content` preserves: the text of a block built from clean
  lines comes back as those lines.
*/
module RenderTheory {
  import opened Text
  import opened Document
  import opened Sections
  import opened Render

  /** A line the renderer reproduces verbatim: non-empty, one line, and
      without whitespace at either end. */
  predicate CleanLine(l: string) {
    l != "" && '\n' !in l && !IsSpace(l[0]) && !IsSpace(l[|l| - 1])
  }

  /** Rendering inverts joining: a block assembled from clean lines renders
      to exactly those lines, in order, one paragraph each. */
  lemma {:induction false} RenderJoinedLines(lines: seq<string>, mode: Category)
    requires forall i :: 0 <= i < |lines| ==> CleanLine(lines[i])
    ensures Texts(WriteContent(Join(lines, "\n"), mode)) == lines
  {
    if |lines| == 0 {
      NoLinesNoParagraphs(mode);
    } else {
      SplitJoinedLines(lines);
      KeepClean(lines);
      WrittenTexts(Join(lines, "\n"), lines, mode);
    }
  }

  lemma NoLinesNoParagraphs(mode: Category)
    ensures WriteContent(Join([], "\n"), mode) == []
  {
    BlankContentWritesNothing("", mode);
  }

  lemma SplitJoinedLines(lines: seq<string>)
    requires |lines| > 0
    requires forall i :: 0 <= i < |lines| ==> CleanLine(lines[i])
    ensures Split(Join(lines, "\n"), '\n') == lines
  {
    assert "\n" == ['\n'];
    SplitJoin(lines, '\n');
  }

  lemma WrittenTexts(content: string, lines: seq<string>, mode: Category)
    requires Split(content, '\n') == lines
    requires NonBlank(lines) == lines && StripAll(lines) == lines
    ensures Texts(WriteContent(content, mode)) == lines
  {
    var r := WriteContent(content, mode);
    forall i | 0 <= i < |r|
      ensures r[i].text == lines[i]
    {
      assert StripAll(lines)[i] == Strip(lines[i]);
    }
  }

  lemma {:induction false} KeepClean(lines: seq<string>)
    requires forall i :: 0 <= i < |lines| ==> CleanLine(lines[i])
    ensures NonBlank(lines) == lines
    ensures StripAll(lines) == lines
  {
    if |lines| > 0 {
      KeepClean(lines[1..]);
      assert !IsBlank(lines[0]);
      assert [lines[0]] + lines[1..] == lines;
    }
    forall i | 0 <= i < |lines|
      ensures Strip(lines[i]) == lines[i]
    {
      assert CleanLine(lines[i]);
    }
  }
}

=== FILE: scanner.dfy ===
/**
  The document scanner `read_docx_content`: the transcript sent to the
  language model.
*/
module Scanner {
  import opened Text
  import opened Document

  function CellTexts(cells: seq<Cell>): seq<string> {
    seq(|cells|, i requires 0 <= i < |cells| => CellText(cells[i]))
  }

  lemma CellTextsAt(cells: seq<Cell>)
    ensures |CellTexts(cells)| == |cells|
    ensures forall i :: 0 <= i < |cells| ==> CellTexts(cells)[i] == CellText(cells[i])
  {
  }

  /** The lines of the transcript: every non-blank cell text in table, row,
      cell order, then every non-blank top-level paragraph. */
  function TranscriptLines(d: Doc): seq<string> {
    NonBlank(CellTexts(Cells(d))) + NonBlank(Texts(d.paragraphs))
  }

  /** `read_docx_content`: walks the tables, then the top-level paragraphs,
      collecting the texts that are not blank, and joins them with
      newlines. */
  method ReadContent(d: Doc) returns (transcript: string)
    ensures transcript == Join(TranscriptLines(d), "\n")
    ensures transcript == "" <==> (forall c :: c in Cells(d) ==> IsBlank(CellText(c)))
                                  && (forall p :: p in d.paragraphs ==> IsBlank(p.text))
  {
    var cellLines := TablesLines(d.tables);
    var paragraphLines := ParagraphLines(d.paragraphs);
    var lines := cellLines + paragraphLines;
    transcript := Join(lines, "\n");
    TranscriptEmpty(d, lines);
  }

  /** The non-blank cell texts of some tables, table by table. */
  method TablesLines(tables: seq<Table>) returns (lines: seq<string>)
    ensures lines == NonBlank(CellTexts(TablesCells(tables)))
  {
    lines := [];
    var t := 0;
    while t < |tables|
      invariant 0 <= t <= |tables|
      invariant lines == NonBlank(CellTexts(TablesCells(tables[..t])))
    {
      var tableLines := TableLines(tables[t]);
      NextTable(tables, t);
      lines := lines + tableLines;
      t := t + 1;
    }
    assert tables == tables[..t];
  }

  /** The non-blank texts of the top-level paragraphs, in order. */
  method ParagraphLines(ps: seq<Paragraph>) returns (lines: seq<string>)
    ensures lines == NonBlank(Texts(ps))
  {
    lines := [];
    var p := 0;
    while p < |ps|
      invariant 0 <= p <= |ps|
      invariant lines == NonBlank(Texts(ps[..p]))
    {
      var text := ps[p].text;
      NextParagraph(ps, p);
      if Strip(text) != "" {
        lines := lines + [text];
      }
      p := p + 1;
    }
    assert ps == ps[..p];
  }

  /** The non-blank cell texts of one table, row by row. */
  method TableLines(table: Table) returns (lines: seq<string>)
    ensures lines == NonBlank(CellTexts(RowsCells(table.rows)))
  {
    var rows := table.rows;
    lines := [];
    var r := 0;
    assert RowsCells(rows[..0]) == [];
    while r < |rows|
      invariant 0 <= r <= |rows|
      invariant lines == NonBlank(CellTexts(RowsCells(rows[..r])))
    {
      var rowLines := RowLines(rows[r].cells);
      NextRow(rows, r);
      lines := lines + rowLines;
      r := r + 1;
    }
    assert rows == rows[..r];
  }

  /** The non-blank cell texts of one row, cell by cell. */
  method RowLines(cells: seq<Cell>) returns (lines: seq<string>)
    ensures lines == NonBlank(CellTexts(cells))
  {
    lines := [];
    var c := 0;
    while c < |cells|
      invariant 0 <= c <= |cells|
      invariant lines == NonBlank(CellTexts(cells[..c]))
    {
      var text := CellText(cells[c]);
      KeepNext(cells, c);
      if Strip(text) != "" {
        lines := lines + [text];
      }
      c := c + 1;
    }
    assert cells == cells[..c];
  }

  lemma KeepNext(cells: seq<Cell>, c: nat)
    requires c < |cells|
    ensures NonBlank(CellTexts(cells[..c + 1]))
            == NonBlank(CellTexts(cells[..c]))
               + (if IsBlank(CellText(cells[c])) then [] else [CellText(cells[c])])
  {
    assert cells[..c + 1] == cells[..c] + [cells[c]];
    KeepOne(cells[..c], cells[c]);
  }

  lemma NextParagraph(ps: seq<Paragraph>, p: nat)
    requires p < |ps|
    ensures NonBlank(Texts(ps[..p + 1]))
            == NonBlank(Texts(ps[..p])) + (if IsBlank(ps[p].text) then [] else [ps[p].text])
  {
    NonBlankAppend(Texts(ps[..p]), [ps[p].text]);
    assert Texts(ps[..p + 1]) == Texts(ps[..p]) + [ps[p].text];
  }

  lemma KeepOne(cells: seq<Cell>, c: Cell)
    ensures NonBlank(CellTexts(cells + [c]))
            == NonBlank(CellTexts(cells)) + (if IsBlank(CellText(c)) then [] else [CellText(c)])
  {
    assert CellTexts(cells + [c]) == CellTexts(cells) + [CellText(c)];
    NonBlankAppend(CellTexts(cells), [CellText(c)]);
  }

  lemma CellTextsAppend(a: seq<Cell>, b: seq<Cell>)
    ensures NonBlank(CellTexts(a + b)) == NonBlank(CellTexts(a)) + NonBlank(CellTexts(b))
  {
    assert CellTexts(a + b) == CellTexts(a) + CellTexts(b);
    NonBlankAppend(CellTexts(a), CellTexts(b));
  }

  lemma NextRow(rows: seq<Row>, r: nat)
    requires r < |rows|
    ensures NonBlank(CellTexts(RowsCells(rows[..r + 1])))
            == NonBlank(CellTexts(RowsCells(rows[..r]))) + NonBlank(CellTexts(rows[r].cells))
  {
    assert rows[..r + 1] == rows[..r] + [rows[r]];
    RowsCellsAppend(rows[..r], [rows[r]]);
    assert RowsCells([rows[r]]) == rows[r].cells;
    CellTextsAppend(RowsCells(rows[..r]), rows[r].cells);
  }

  lemma NextTable(tables: seq<Table>, t: nat)
    requires t < |tables|
    ensures NonBlank(CellTexts(TablesCells(tables[..t + 1])))
            == NonBlank(CellTexts(TablesCells(tables[..t]))) + NonBlank(CellTexts(RowsCells(tables[t].rows)))
  {
    assert tables[..t + 1] == tables[..t] + [tables[t]];
    TablesCellsAppend(tables[..t], [tables[t]]);
    assert TablesCells([tables[t]]) == RowsCells(tables[t].rows);
    CellTextsAppend(TablesCells(tables[..t]), RowsCells(tables[t].rows));
  }

  /** A newline-join of non-blank lines is empty exactly when there are none. */
  lemma TranscriptEmpty(d: Doc, lines: seq<string>)
    requires lines == TranscriptLines(d)
    ensures Join(lines, "\n") == ""
            <==> (forall c :: c in Cells(d) ==> IsBlank(CellText(c)))
                 && (forall p :: p in d.paragraphs ==> IsBlank(p.text))
  {
    var cells := CellTexts(Cells(d));
    var paras := Texts(d.paragraphs);
    CellTextsAt(Cells(d));
    TextsAt(d.paragraphs);
    assert forall i :: 0 <= i < |lines| ==> !IsBlank(lines[i]);
    if |lines| > 0 {
      assert |Join(lines, "\n")| >= |lines[0]|;
      assert lines[0] != "";
    }
    assert (forall c :: c in Cells(d) ==> IsBlank(CellText(c))) <==> NonBlank(cells) == [] by {
      assert forall c :: c in Cells(d) ==> CellText(c) in cells;
    }
    assert (forall p :: p in d.paragraphs ==> IsBlank(p.text)) <==> NonBlank(paras) == [] by {
      assert forall p :: p in d.paragraphs ==> p.text in paras;
    }
  }

  /** A document without tables is scanned to its non-blank top-level
      paragraphs alone. */
  lemma NoTablesParagraphsOnly(d: Doc)
    requires d.tables == []
    ensures TranscriptLines(d) == NonBlank(Texts(d.paragraphs))
  {
    assert Cells(d) == [];
    assert CellTexts([]) == [];
  }

  /** A cell whose text is blank, wherever it sits, adds nothing. */
  lemma BlankCellIgnored(before: seq<Cell>, blank: Cell, after: seq<Cell>)
    requires IsBlank(CellText(blank))
    ensures NonBlank(CellTexts(before + [blank] + after)) == NonBlank(CellTexts(before + after))
  {
    CellTextsAppend(before + [blank], after);
    KeepOne(before, blank);
    CellTextsAppend(before, after);
  }
}

=== FILE: scenarios.dfy ===
/**
  Worked cases of the fill and the renderer's decision table, on concrete
  cells and lines.
*/
module Scenarios {
  import opened Options
  import opened Text
  import opened Sections
  import opened Document
  import opened Style
  import opened Fill

  /** A phrase longer than the text cannot occur in it. */
  lemma TooLong(s: string, t: string)
    requires |s| < |t|
    ensures !Contains(s, t)
  {
  }

  /** A phrase as long as the text occurs in it only as the whole text. */
  lemma SameLength(s: string, t: string)
    requires |s| == |t| && s != t
    ensures !Contains(s, t)
  {
  }

  /** A two-character text other than "截图" holds no code phrase: the
      other four phrases are longer. */
  lemma NoCodePhrase(s: string)
    requires |s| == 2 && s != "截图"
    ensures !Matches(s, Code)
  {
    var kws := Keywords(Code);
    forall k | 0 <= k < |kws|
      ensures !Contains(s, kws[k])
    {
      if k == 4 {
        SameLength(s, kws[k]);
      } else {
        TooLong(s, kws[k]);
      }
    }
  }

  /** A cell none of whose paragraphs holds a phrase of `c` on its own keeps
      every one of them when it receives section `c`. */
  lemma NothingCleared(cell: Cell, c: Category, g: Generated)
    requires forall i :: 0 <= i < |cell.paragraphs| ==> !Matches(cell.paragraphs[i].text, c)
    ensures Apply(cell, Some(c), g).paragraphs[..|cell.paragraphs|] == cell.paragraphs
  {
    ApplySpec(cell, Some(c), g);
    var ps := cell.paragraphs;
    var kept := Apply(cell, Some(c), g).paragraphs[..|ps|];
    forall i | 0 <= i < |ps|
      ensures kept[i] == ps[i]
    {
      assert !Matches(ps[i].text, c);
    }
  }

  /** A placeholder phrase split over two paragraphs: the cell is matched on
      its joined text and receives the code section, but neither paragraph
      holds the phrase on its own, so nothing is cleared. */
  lemma SpanningPhrase(g: Generated)
    ensures var cell := Cell([Paragraph("运行", Template), Paragraph("代码", Template)]);
            && Choose(MatchText(cell), Unfilled) == Some(Code)
            && Apply(cell, Some(Code), g).paragraphs[..2] == cell.paragraphs
  {
    var cell := Cell([Paragraph("运行", Template), Paragraph("代码", Template)]);
    JoinedPhrase(cell);
    NoCodePhrase("运行");
    NoCodePhrase("代码");
    NothingCleared(cell, Code, g);
  }

  lemma JoinedPhrase(cell: Cell)
    requires cell == Cell([Paragraph("运行", Template), Paragraph("代码", Template)])
    ensures Choose(MatchText(cell), Unfilled) == Some(Code)
  {
    var text := MatchText(cell);
    assert Texts(cell.paragraphs) == ["运行", "代码"];
    assert text == "运行代码";
    assert OccursAt(text, Keywords(Code)[2], 0);
  }

  /** A line that opens with a full-width item number is bolded body text. */
  lemma ItemNumberLine()
    ensures LineFormat("（1）查询所有学生信息", Code) == Rendered(None, FontStyle(BodyProfile, true))
  {
    assert ItemNumberAt("（1）查询所有学生信息", 0, 2);
  }

  /** A query line is set as shaded code. */
  lemma StatementLine()
    ensures LineFormat("SELECT * FROM Students;", Code)
            == Rendered(Some(CodeShading), FontStyle(CodeProfile, false))
  {
    StatementKind("SELECT * FROM Students;");
  }

  lemma StatementKind(line: string)
    requires line == "SELECT * FROM Students;"
    ensures Classify(line) == Statement
  {
    assert !StartsWithItemNumber(line);
    assert HasStatementMarker(line) by {
      assert OccursAt(Upper(line), StatementMarkers[3], 0);
    }
  }

  /** Every statement marker is written in ASCII. */
  lemma MarkersAscii()
    ensures forall k :: 0 <= k < |StatementMarkers| ==> |StatementMarkers[k]| > 0
    ensures forall k, i :: 0 <= k < |StatementMarkers| && 0 <= i < |StatementMarkers[k]|
              ==> StatementMarkers[k][i] as int < 128
  {
  }

  /** A line with no ASCII character at all carries no statement marker. */
  lemma NoAsciiNoMarker(line: string)
    requires forall i :: 0 <= i < |line| ==> line[i] as int >= 128
    ensures !HasStatementMarker(line)
  {
    MarkersAscii();
    var u := Upper(line);
    forall k, j | 0 <= k < |StatementMarkers|
      ensures !OccursAt(u, StatementMarkers[k], j)
    {
      var m := StatementMarkers[k];
      if 0 <= j && j + |m| <= |u| {
        assert u[j..j + |m|][0] == u[j];
        assert u[j] as int >= 128;
        assert m[0] as int < 128;
      }
    }
  }

  /** A reflective sentence is plain body text. */
  lemma NarrativeLine()
    ensures LineFormat("本次实验加深了我的理解", Code) == Rendered(None, FontStyle(BodyProfile, false))
  {
    NarrativeKind("本次实验加深了我的理解");
  }

  lemma NarrativeKind(line: string)
    requires line == "本次实验加深了我的理解"
    ensures Classify(line) == Narrative
  {
    assert !StartsWithItemNumber(line);
    NoAsciiNoMarker(line);
  }
}

=== FILE: sections.dfy ===
/**
  The three report sections shared by the response format and the
  template: the keys 'design', 'code' and 'analysis' of the source's
  dictionaries.
*/
module Sections {

  datatype Category = Design | Code | Analysis

  /** The generated text blocks the fill engine consumes, one per category. */
  datatype Generated = Generated(design: string, code: string, analysis: string) {

    function Get(c: Category): string {
      match c
      case Design => design
      case Code => code
      case Analysis => analysis
    }
  }
}

=== FILE: style.dfy ===
/**
  The style decisions of the renderer: the two font profiles of
  `set_font_style`, the background fill of `add_shading`, and the rule that
  classifies one line of generated code-section text.
*/
module Style {
  import opened Options
  import opened Text
  import opened Document
  import opened Sections

  const BodyFontLatin: string := "Times New Roman"
  const BodyFontEastAsia: string := "宋体"
  const CodeFont: string := "Courier New"
  /** Deep blue for narrative answers. */
  const AnswerColor: Rgb := Rgb(0, 0, 139)
  /** Dark grey for code. */
  const CodeColor: Rgb := Rgb(50, 50, 50)
  /** The light-grey paragraph fill put behind code lines. */
  const CodeShading: string := "F2F2F2"
  /** 12 pt for body text, 10.5 pt for code, in half-points. */
  const BodyHalfPoints: nat := 24
  const CodeHalfPoints: nat := 21

  /** The run style `set_font_style` produces for a profile and bold flag. */
  function FontStyle(profile: Profile, bold: bool): (s: RunStyle)
    ensures s.profile == profile && s.bold == bold
    ensures profile == CodeProfile ==> s.latinFont == CodeFont && s.eastAsiaFont.None?
                                       && s.color == CodeColor
    ensures profile == BodyProfile ==> s.latinFont == BodyFontLatin
                                       && s.eastAsiaFont == Some(BodyFontEastAsia)
                                       && s.color == AnswerColor
    ensures s.halfPoints == if profile == CodeProfile then CodeHalfPoints else BodyHalfPoints
  {
    match profile
    case CodeProfile => RunStyle(CodeProfile, CodeFont, None, CodeHalfPoints, CodeColor, bold)
    case BodyProfile =>
      RunStyle(BodyProfile, BodyFontLatin, Some(BodyFontEastAsia), BodyHalfPoints, AnswerColor, bold)
  }

  /** Distinct requests give distinct styles: the styled run records which
      profile and bold flag it was asked for, so the renderer's decision can
      be read back from the run. */
  lemma FontStyleDistinct(p: Profile, b: bool, p': Profile, b': bool)
    ensures FontStyle(p, b) == FontStyle(p', b') <==> p == p' && b == b'
  {
  }

  predicate IsOpenParen(c: char) {
    c == '(' || c == '（'
  }

  predicate IsCloseParen(c: char) {
    c == ')' || c == '）'
  }

  /** The pattern `^\s*[（\(]\d+[）\)]` matches `line` with the opening
      parenthesis at `k` and the closing one at `m`. */
  ghost predicate ItemNumberAt(line: string, k: int, m: int) {
    && 0 <= k && k + 1 < m < |line|
    && (forall i :: 0 <= i < k ==> IsSpace(line[i]))
    && IsOpenParen(line[k])
    && (forall i :: k < i < m ==> IsDigit(line[i]))
    && IsCloseParen(line[m])
  }

  ghost predicate IsItemNumberLine(line: string) {
    exists k, m :: ItemNumberAt(line, k, m)
  }

  /** The first index at or after `i` that does not satisfy `IsSpace`. */
  function SkipSpaces(s: string, i: nat): (j: nat)
    requires i <= |s|
    ensures i <= j <= |s|
    ensures forall k :: i <= k < j ==> IsSpace(s[k])
    ensures j < |s| ==> !IsSpace(s[j])
    decreases |s| - i
  {
    if i < |s| && IsSpace(s[i]) then SkipSpaces(s, i + 1) else i
  }

  /** The first index at or after `i` that is not an ASCII digit. */
  function SkipDigits(s: string, i: nat): (j: nat)
    requires i <= |s|
    ensures i <= j <= |s|
    ensures forall k :: i <= k < j ==> IsDigit(s[k])
    ensures j < |s| ==> !IsDigit(s[j])
    decreases |s| - i
  {
    if i < |s| && IsDigit(s[i]) then SkipDigits(s, i + 1) else i
  }

  /** `re.match(r'^\s*[（\(]\d+[）\)]', line)`, decided by scanning. */
  predicate StartsWithItemNumber(line: string)
    ensures StartsWithItemNumber(line) <==> IsItemNumberLine(line)
  {
    var k := SkipSpaces(line, 0);
    var found := k < |line| && IsOpenParen(line[k])
                 && var m := SkipDigits(line, k + 1);
                    k + 1 < m < |line| && IsCloseParen(line[m]);
    assert found ==> IsItemNumberLine(line) by {
      if found {
        assert ItemNumberAt(line, k, SkipDigits(line, k + 1));
      }
    }
    assert IsItemNumberLine(line) ==> found by {
      if IsItemNumberLine(line) {
        var k', m' :| ItemNumberAt(line, k', m');
        assert k' == k;
        assert m' == SkipDigits(line, k + 1);
      }
    }
    found
  }

  /** The statement keywords, terminator and comment marker that make a line
      read as SQL. */
  const StatementMarkers: seq<string> := [
    "CREATE", "INSERT", "UPDATE", "SELECT", "ALTER", "DROP", "TABLE",
    "TRIGGER", "PROCEDURE", "DECLARE", "BEGIN", "END", ";", "--"
  ]

  predicate HasStatementMarker(line: string) {
    ContainsAny(Upper(line), StatementMarkers)
  }

  /** The kind the renderer gives one stripped line of the code section. */
  datatype LineKind = ItemNumber | Statement | Narrative

  function Classify(line: string): (k: LineKind)
    ensures k == ItemNumber <==> IsItemNumberLine(line)
    ensures k == Statement <==> !IsItemNumberLine(line)
                                && exists i, j :: 0 <= i < |StatementMarkers|
                                                  && OccursAt(Upper(line), StatementMarkers[i], j)
  {
    if StartsWithItemNumber(line) then ItemNumber
    else if HasStatementMarker(line) then Statement
    else Narrative
  }

  /** The format of the paragraph rendered for `line` in a section of
      category `mode`: the decision table of the renderer. */
  function LineFormat(line: string, mode: Category): (f: Format)
    ensures f.Rendered?
    ensures f.run.bold <==> mode == Code && IsItemNumberLine(line)
    ensures f.shading.Some? <==> mode == Code && Classify(line) == Statement
    ensures f.shading.Some? ==> f.shading.value == CodeShading
    ensures f.run.profile == CodeProfile <==> f.shading.Some?
    ensures !(f.run.bold && f.shading.Some?)
    ensures f.run == FontStyle(f.run.profile, f.run.bold)
  {
    if mode != Code then Rendered(None, FontStyle(BodyProfile, false))
    else
      match Classify(line)
      case ItemNumber => Rendered(None, FontStyle(BodyProfile, true))
      case Statement => Rendered(Some(CodeShading), FontStyle(CodeProfile, false))
      case Narrative => Rendered(None, FontStyle(BodyProfile, false))
  }
}

=== FILE: text.dfy ===
/**
  String primitives the template engine relies on: Python's `str.strip()`,
  `str.split('\n')`, `sep.join(...)`, the `in` substring test, and an
  ASCII-only `str.upper()`.
*/
module Text {
  import opened Options

  /** The characters Python's `str.isspace()` accepts; `str.strip()` and the
      regular-expression class `\s` both use exactly this set. */
  predicate IsSpace(c: char) {
    || ('\t' <= c <= '\r')
    || ('\U{1C}' <= c <= '\U{1F}')
    || c == ' ' || c == '\U{85}' || c == '\U{A0}' || c == '\U{1680}'
    || ('\U{2000}' <= c <= '\U{200A}')
    || c == '\U{2028}' || c == '\U{2029}' || c == '\U{202F}' || c == '\U{205F}'
    || c == '\U{3000}'
  }

  predicate IsDigit(c: char) {
    '0' <= c <= '9'
  }

  /** A string that `str.strip()` reduces to "" (it is falsy after strip). */
  predicate IsBlank(s: string) {
    forall i :: 0 <= i < |s| ==> IsSpace(s[i])
  }

  /** Python's `s.strip()`: the infix left after removing leading and
      trailing whitespace. */
  function Strip(s: string): (r: string)
    ensures |r| <= |s|
    ensures r == [] <==> IsBlank(s)
    decreases |s|
  {
    if |s| > 0 && IsSpace(s[0]) then
      assert IsBlank(s[1..]) ==> IsBlank(s) by {
        assert forall i :: 1 <= i < |s| ==> s[i] == s[1..][i - 1];
      }
      Strip(s[1..])
    else if |s| > 0 && IsSpace(s[|s| - 1]) then
      Strip(s[..|s| - 1])
    else s
  }

  /** `r` sits in `s` at index `a` with only whitespace before and after it. */
  predicate StrippedAt(s: string, r: string, a: int) {
    0 <= a <= |s| - |r| && r == s[a..a + |r|] && IsBlank(s[..a]) && IsBlank(s[a + |r|..])
  }

  /** What `strip()` removes is whitespace on both sides: the result is the
      infix of `s` between a blank prefix and a blank suffix. */
  lemma {:induction false} StripIsInfix(s: string)
    ensures exists a :: StrippedAt(s, Strip(s), a)
    decreases |s|
  {
    var r := Strip(s);
    if |s| > 0 && IsSpace(s[0]) {
      var t := s[1..];
      StripIsInfix(t);
      var a :| StrippedAt(t, r, a);
      StripFront(s, r, a);
    } else if |s| > 0 && IsSpace(s[|s| - 1]) {
      var t := s[..|s| - 1];
      StripIsInfix(t);
      var a :| StrippedAt(t, r, a);
      StripBack(s, r, a);
    } else {
      assert StrippedAt(s, r, 0);
    }
  }

  lemma StripFront(s: string, r: string, a: int)
    requires |s| > 0 && IsSpace(s[0])
    requires StrippedAt(s[1..], r, a)
    ensures StrippedAt(s, r, a + 1)
  {
    var t := s[1..];
    assert r == s[a + 1..a + 1 + |r|];
    assert s[a + 1 + |r|..] == t[a + |r|..];
    var pre := s[..a + 1];
    forall i | 0 <= i < |pre|
      ensures IsSpace(pre[i])
    {
      if i > 0 {
        assert pre[i] == t[..a][i - 1];
      }
    }
  }

  lemma StripBack(s: string, r: string, a: int)
    requires |s| > 0 && IsSpace(s[|s| - 1])
    requires StrippedAt(s[..|s| - 1], r, a)
    ensures StrippedAt(s, r, a)
  {
    var t := s[..|s| - 1];
    assert r == s[a..a + |r|];
    assert s[..a] == t[..a];
    var post := s[a + |r|..];
    var tpost := t[a + |r|..];
    forall i | 0 <= i < |post|
      ensures IsSpace(post[i])
    {
      if i < |tpost| {
        assert post[i] == tpost[i];
      }
    }
  }

  /** Stripping never introduces a character. */
  lemma {:induction false} StripKeepsOut(s: string, c: char)
    requires c !in s
    ensures c !in Strip(s)
    decreases |s|
  {
    if |s| > 0 && IsSpace(s[0]) {
      StripKeepsOut(s[1..], c);
    } else if |s| > 0 && IsSpace(s[|s| - 1]) {
      assert c !in s[..|s| - 1];
      StripKeepsOut(s[..|s| - 1], c);
    }
  }

  lemma BlankAppend(a: string, b: string)
    requires IsBlank(a + b)
    ensures IsBlank(a) && IsBlank(b)
  {
    assert forall i :: 0 <= i < |a| ==> a[i] == (a + b)[i];
    assert forall i :: 0 <= i < |b| ==> b[i] == (a + b)[|a| + i];
  }

  /** A stripped string neither starts nor ends with whitespace. */
  lemma {:induction false} StripEnds(s: string)
    ensures Strip(s) != [] ==> !IsSpace(Strip(s)[0]) && !IsSpace(Strip(s)[|Strip(s)| - 1])
    decreases |s|
  {
    if |s| > 0 && IsSpace(s[0]) {
      StripEnds(s[1..]);
    } else if |s| > 0 && IsSpace(s[|s| - 1]) {
      StripEnds(s[..|s| - 1]);
    }
  }

  lemma StripIdempotent(s: string)
    ensures Strip(Strip(s)) == Strip(s)
  {
    StripEnds(s);
  }

  /** `t` occurs in `s` starting at index `i`. */
  predicate OccursAt(s: string, t: string, i: int) {
    0 <= i && i + |t| <= |s| && s[i..i + |t|] == t
  }

  /** The first index at or after `from` where `t` occurs in `s`, as
      `s.find(t, from)` would report it. */
  function IndexFrom(s: string, t: string, from: nat): (r: Option<nat>)
    ensures r.Some? ==> from <= r.value && OccursAt(s, t, r.value)
    ensures r.Some? ==> forall j :: from <= j < r.value ==> !OccursAt(s, t, j)
    ensures r.None? ==> forall j :: from <= j ==> !OccursAt(s, t, j)
    decreases |s| - from
  {
    if from + |t| > |s| then None
    else if s[from..from + |t|] == t then Some(from)
    else IndexFrom(s, t, from + 1)
  }

  /** Python's `t in s`. */
  predicate Contains(s: string, t: string)
    ensures Contains(s, t) <==> exists i :: OccursAt(s, t, i)
  {
    IndexFrom(s, t, 0).Some?
  }

  /** Python's `any(k in s for k in keys)`. */
  predicate ContainsAny(s: string, keys: seq<string>) {
    exists k :: 0 <= k < |keys| && Contains(s, keys[k])
  }

  /** `sep.join(items)`. */
  function Join(items: seq<string>, sep: string): string
  {
    if |items| == 0 then ""
    else if |items| == 1 then items[0]
    else items[0] + sep + Join(items[1..], sep)
  }

  /** Every item of a join occurs in the joined string. */
  lemma {:induction false} JoinHoldsItem(items: seq<string>, sep: string, k: int)
    requires 0 <= k < |items|
    ensures exists p :: OccursAt(Join(items, sep), items[k], p)
    decreases |items|
  {
    var whole := Join(items, sep);
    if |items| == 1 {
      assert whole[0..|items[0]|] == items[0];
      assert OccursAt(whole, items[k], 0);
    } else {
      var rest := Join(items[1..], sep);
      assert whole == items[0] + sep + rest;
      if k == 0 {
        assert whole[0..|items[0]|] == items[0];
        assert OccursAt(whole, items[k], 0);
      } else {
        JoinHoldsItem(items[1..], sep, k - 1);
        var p :| OccursAt(rest, items[1..][k - 1], p);
        OccursShift(items[0] + sep, rest, items[k], p);
      }
    }
  }

  /** An occurrence in the tail of a concatenation is an occurrence in the
      whole, shifted by the head's length. */
  lemma OccursShift(head: string, tail: string, t: string, p: int)
    requires OccursAt(tail, t, p)
    ensures OccursAt(head + tail, t, |head| + p)
  {
    assert (head + tail)[|head| + p..|head| + p + |t|] == tail[p..p + |t|];
  }

  /** An occurrence inside an occurrence is an occurrence. */
  lemma OccursWithin(s: string, u: string, t: string, p: int, q: int)
    requires OccursAt(s, u, p) && OccursAt(u, t, q)
    ensures OccursAt(s, t, p + q)
  {
    var w := s[p..p + |u|];
    assert w == u;
    var a := s[p + q..p + q + |t|];
    var b := u[q..q + |t|];
    forall k | 0 <= k < |t|
      ensures a[k] == b[k]
    {
      assert s[p + q + k] == w[q + k];
    }
  }

  /** `s.split(sep)` for a one-character separator: the pieces between
      separators, in order, including empty ones. */
  function Split(s: string, sep: char): (r: seq<string>)
    ensures |r| >= 1
    ensures forall i :: 0 <= i < |r| ==> sep !in r[i]
    ensures Join(r, [sep]) == s
    decreases |s|
  {
    if |s| == 0 then [""]
    else
      var rest := Split(s[1..], sep);
      if s[0] == sep then [""] + rest
      else
        var r := [[s[0]] + rest[0]] + rest[1..];
        assert Join(r, [sep]) == [s[0]] + Join(rest, [sep]);
        r
  }

  /** Splitting undoes joining whenever no piece contains the separator. */
  lemma {:induction false} SplitJoin(items: seq<string>, sep: char)
    requires |items| >= 1
    requires forall i :: 0 <= i < |items| ==> sep !in items[i]
    ensures Split(Join(items, [sep]), sep) == items
    decreases |items|, |items[0]|
  {
    var x := items[0];
    if |x| == 0 {
      if |items| > 1 {
        var tail := items[1..];
        SplitJoin(tail, sep);
        JoinEmptyHead(items, sep);
      }
    } else {
      var shorter := [x[1..]] + items[1..];
      ShorterPieces(items, sep);
      SplitJoin(shorter, sep);
      JoinCharHead(items, sep);
      assert x[0] in x;
    }
  }

  lemma JoinEmptyHead(items: seq<string>, sep: char)
    requires |items| > 1 && items[0] == ""
    requires Split(Join(items[1..], [sep]), sep) == items[1..]
    ensures Split(Join(items, [sep]), sep) == items
  {
    var rest := Join(items[1..], [sep]);
    var s := Join(items, [sep]);
    assert s == items[0] + [sep] + rest;
    assert items[0] + [sep] == [sep];
    assert s == [sep] + rest;
    assert s[0] == sep && s[1..] == rest;
    assert Split(s, sep) == [""] + Split(rest, sep);
    assert [""] + items[1..] == items;
  }

  lemma ShorterPieces(items: seq<string>, sep: char)
    requires |items| >= 1 && |items[0]| > 0
    requires forall i :: 0 <= i < |items| ==> sep !in items[i]
    ensures forall i :: 0 <= i < |items| ==> sep !in ([items[0][1..]] + items[1..])[i]
  {
    var shorter := [items[0][1..]] + items[1..];
    forall i | 0 <= i < |items|
      ensures sep !in shorter[i]
    {
      if i > 0 {
        assert shorter[i] == items[i];
      } else {
        assert sep !in items[0];
      }
    }
  }

  lemma JoinCharHead(items: seq<string>, sep: char)
    requires |items| >= 1 && |items[0]| > 0 && items[0][0] != sep
    requires Split(Join([items[0][1..]] + items[1..], [sep]), sep) == [items[0][1..]] + items[1..]
    ensures Split(Join(items, [sep]), sep) == items
  {
    var x := items[0];
    var shorter := [x[1..]] + items[1..];
    assert shorter[1..] == items[1..];
    var s := Join(items, [sep]);
    assert s == [x[0]] + Join(shorter, [sep]) by {
      assert x == [x[0]] + x[1..];
      if |items| > 1 {
        assert Join(items, [sep]) == x + [sep] + Join(items[1..], [sep]);
        assert Join(shorter, [sep]) == x[1..] + [sep] + Join(shorter[1..], [sep]);
      }
    }
    assert s[1..] == Join(shorter, [sep]);
    assert [[x[0]] + shorter[0]] + shorter[1..] == items by {
      assert [x[0]] + x[1..] == x;
    }
  }

  /** Keeps, in order, the strings that are not blank: the filter written
      as `if s.strip():` in the source. */
  function NonBlank(xs: seq<string>): (r: seq<string>)
    ensures |r| <= |xs|
    ensures forall i :: 0 <= i < |r| ==> !IsBlank(r[i])
    ensures r == [] <==> forall i :: 0 <= i < |xs| ==> IsBlank(xs[i])
  {
    if |xs| == 0 then []
    else
      var rest := NonBlank(xs[1..]);
      assert (forall i :: 0 <= i < |xs| ==> IsBlank(xs[i]))
             <==> IsBlank(xs[0]) && forall i :: 0 <= i < |xs[1..]| ==> IsBlank(xs[1..][i]);
      if IsBlank(xs[0]) then rest else [xs[0]] + rest
  }

  /** The filter keeps exactly the non-blank elements: nothing else comes
      out, and nothing non-blank is lost. */
  lemma {:induction false} NonBlankMembers(xs: seq<string>)
    ensures forall y :: y in NonBlank(xs) <==> y in xs && !IsBlank(y)
  {
    if |xs| > 0 {
      NonBlankMembers(xs[1..]);
      assert forall x :: x in xs <==> x == xs[0] || x in xs[1..];
    }
  }

  lemma {:induction false} NonBlankAppend(xs: seq<string>, ys: seq<string>)
    ensures NonBlank(xs + ys) == NonBlank(xs) + NonBlank(ys)
  {
    if |xs| == 0 {
      assert xs + ys == ys;
    } else {
      assert (xs + ys)[1..] == xs[1..] + ys;
      NonBlankAppend(xs[1..], ys);
    }
  }

  function UpperChar(c: char): char {
    if 'a' <= c <= 'z' then (c as int - 32) as char else c
  }

  /** `s.upper()` restricted to the ASCII letters. */
  function Upper(s: string): string {
    seq(|s|, i requires 0 <= i < |s| => UpperChar(s[i]))
  }

  /** Upper-casing keeps the length, turns each ASCII lower-case letter into
      its capital, leaves every other character alone, and leaves no ASCII
      lower-case letter behind, so doing it twice changes nothing more. */
  lemma UpperCases(s: string)
    ensures |Upper(s)| == |s|
    ensures forall i :: 0 <= i < |s| && 'a' <= s[i] <= 'z' ==> Upper(s)[i] as int == s[i] as int - 32
    ensures forall i :: 0 <= i < |s| && !('a' <= s[i] <= 'z') ==> Upper(s)[i] == s[i]
    ensures forall i :: 0 <= i < |s| ==> !('a' <= Upper(s)[i] <= 'z')
    ensures Upper(Upper(s)) == Upper(s)
  {
  }
}
